=== FILE: README.md ===
# Brylle network panel: billing bookkeeping in Dafny

This project models the bookkeeping core of a small admin panel that an
internet service provider uses to track its subscribers' billing cycles.
The panel is an Express server (`server.js`) with a browser dashboard
(`public/script.js`). The model covers these parts:

- the status reclassification that `GET /api/clients` runs before it
  answers: a client with a due date is `Inactive` once that date has
  passed and `Active` otherwise;
- the client routes that create a client, record a payment and delete a
  client, each with its 400 or 404 refusal;
- the notification history: the payment notice, `appendNotif`, which keeps
  the newest 200 entries newest first, and the clear route;
- the dashboard's search filter and its active, overdue and due-soon cards.

Every route is a pure function over immutable `Client` and `Notification`
records held in sequences. `Routes.Handle` puts them together as one request
handler over both stored collections.

Dates are day numbers (`Billing.Day`). The program itself compares
`YYYY-MM-DD` strings. Module `Dates` defines the civil calendar and its
`YYYY-MM-DD` text. It proves (`Dates.IsoOrder`) that JavaScript string order
on that text is the same as day-number order, in both directions, for years
0 to 9999. That is why the rest of the model can compare integers.
"Today", "now", the current instant and fresh uuids are parameters
(`Routes.Env`).

Modules, leaf to root:

| file | module | contents |
|---|---|---|
| outcomes.dfy | Outcomes | `Option`, `Result`, the route errors with their HTTP codes |
| dates.dfy | Dates | calendar, day numbers, `YYYY-MM-DD` text, string order = day order |
| billing.dfy | Billing | `Client`, `Status`, default and payment cycles, classification, due-date schedule |
| client_store.dfy | ClientStore | reclassify, create, pay and delete, plus their invariants |
| notification_log.dfy | NotificationLog | `Notification`, the payment notice, the bounded append |
| dashboard.dfy | Dashboard | the search filter and the dashboard cards |
| routes.dfy | Routes | the request handler over both collections |
| scenarios.dfy | Scenarios | one subscriber's first cycle with real calendar dates |

## Behaviour worth knowing

- **There is no sweep.** `node-cron` only logs (server.js:208), and
  `/api/run-check-now`, which the dashboard calls, has no route. The only
  reclassification is the read-time pass of `GET /api/clients`, and it
  emits no notifications.
- **Cycles of 0 or below are stored as given.** `parseInt(billingCycle || 30)`
  keeps any number it parses (server.js:108). The pay route treats a stored
  0 as 30, because 0 is falsy (server.js:132). A client created with the
  text "0" therefore falls off its schedule when it is paid
  (`ClientStore.ZeroCycleLeavesSchedule`). The due-date invariant
  (`ClientStore.WellFormed`) covers clients whose stored cycle is not 0.
- **The pay route answers `{ ok: true }`** (server.js:149). Its notice has
  no `dueDate` field; the new due date is only in the message text
  (server.js:139-145).
- **30 days after 2024-01-31 is 2024-03-01**, because 2024 is a leap year
  (`Scenarios.FirstCycle`).
- **`Paid` is read by the dashboard and never written by the server.** The
  model keeps all three status values.

## Model

| member | source | states |
|---|---|---|
| `ClientStore.Reclassify` | server.js:96-102 | Length and order are kept, and only the status changes. A client with a due date becomes `Inactive` exactly when the due date is before today, so a client due today stays `Active`, and it is never left `Paid`. A client without a due date keeps its status. |
| `ClientStore.ReclassifyIdempotent` | server.js:99 | Reclassifying twice with the same today gives the same collection as reclassifying once. |
| `ClientStore.FirstIndex` | server.js:155-156 | The search finds an index exactly when some client has the id, and that index is the first client with it. |
| `ClientStore.Create` | server.js:104-124 | The route fails with 400 exactly when the name, phone or install date is empty. Otherwise the new client goes at the end and the others are kept. It has the fresh id and the form's fields, a cycle of 30 when none is given, a due date one cycle after installation, and status `Active`. |
| `ClientStore.CreateStartsSchedule` | server.js:108-117 | A created client is due exactly one cycle after installation, which is the invariant with k = 1. |
| `ClientStore.Pay` | server.js:127-137 | An unknown id gives 404. Otherwise only the first client with the id changes. Its due date moves one payment cycle past the stored due date, however overdue it was, or past "now" when it had none. Its status becomes `Active`. |
| `ClientStore.PayAdvancesSchedule` | server.js:132-135 | A client k cycles past installation with a non-zero cycle is k + 1 cycles past after payment. |
| `ClientStore.ZeroCycleLeavesSchedule` | server.js:108-135 | A client stored with cycle 0 is on no whole-cycle schedule once paid, because payment treats 0 as 30. |
| `ClientStore.Delete` | server.js:153-159 | An unknown id gives 404. Otherwise the first client with the id is removed and returned, and the rest keep their order. |
| `ClientStore.DeleteReinsert` | server.js:155-157 | Putting the removed client back at its index restores the collection. The multiset loses exactly that one record. |
| `ClientStore.CreateThenDelete` | server.js:104-159 | Deleting a freshly created client by its new id restores the collection as it was before the create and returns the created record. |
| `ClientStore.ReclassifyWellFormed` | server.js:96-102 | Listing keeps ids unique and keeps every client on schedule. |
| `ClientStore.CreateWellFormed` | server.js:104-124 | A create with a fresh id and a cycle other than "0" keeps ids unique and every client on schedule. |
| `ClientStore.PayWellFormed` | server.js:127-137 | Payment keeps ids unique and every client on schedule. |
| `ClientStore.DeleteWellFormed` | server.js:153-159 | Deletion keeps ids unique and every client on schedule. |
| `Billing.ClassifyOnText` | server.js:98-99 | The server's string test `dueDate < today` picks the same status as `Classify` on the dates' day numbers. |
| `NotificationLog.Append` | server.js:56-60 | The new entry is at index 0. The length is min(old + 1, 200). The rest is the old log's prefix in order. |
| `Routes.PaymentNoticeNamesPaidClient` | server.js:139-145 | The notice a successful pay emits carries the paid id, the name of the first client with that id, and exactly the due date that client now has stored. |
| `NotificationLog.AppendAllKeepsNewest` | server.js:56-60 | After any batch of appends the history is the newest 200 of the batch, newest first, followed by the old history. Only the oldest entries are dropped. |
| `NotificationLog.AppendKeepsNewestFirst` | server.js:58 | Appending an entry no older than the newest keeps the history in newest-first order. |
| `Dashboard.Lower` | public/script.js:66 | Lowercasing keeps the length and turns each upper-case ASCII letter into its lower-case partner, so no upper-case ASCII letter is left. Every other character is unchanged. |
| `Dashboard.IncludesIffOccurs` | public/script.js:66-67 | `includes` holds exactly when the query occurs at some index. |
| `Dashboard.Filter` | public/script.js:65-68 | The result keeps every matching client with its multiplicity and drops every other client, in input order. Its length is at most the input length. |
| `Dashboard.Search` | public/script.js:64-68 | An empty query keeps the whole list. A non-empty query keeps exactly the clients whose lowercased name contains the lowercased query or whose phone contains the query, in order. |
| `Dashboard.SearchIdempotent` | public/script.js:65-68 | Searching a search result again with the same query changes nothing. |
| `Dashboard.CardsBounded` | public/script.js:75-79 | overdue + dueSoon <= active <= total, because overdue and due-soon clients are disjoint sets of active clients. |
| `Dashboard.Tally` | public/script.js:75-101 | The `forEach` pass yields the total, the count of non-`Paid` clients, the count of those due before today and the count of those due from today to today + 3. |
| `Dashboard.UndatedCountsOnlyAsActive` | public/script.js:77-79 | A client without a due date adds to the active card unless it is `Paid`. It never adds to the overdue or due-soon card. |
| `Dashboard.OverdueMatchesServer` | public/script.js:78 | On the list the server returns for the same day, the overdue card counts exactly the dated clients the server marked `Inactive`. |
| `Dashboard.CardsOnText` | public/script.js:78-79 | The cards' string comparisons on `YYYY-MM-DD` dates are the day-number comparisons of `IsOverdue` and `IsDueSoon`. |
| `Dates.NextDay` | server.js:109-110 | The day after the last of a month is the first of the next month, and the day after 31 December is 1 January of the next year: in both cases the day number goes up by exactly one, so adding n days to a day number is the calendar's `setDate(getDate() + n)`. |
| `Dates.IsoOrder` | server.js:99 | For valid dates, `Iso(a) < Iso(b)` as JavaScript strings exactly when a's day number is smaller than b's. |
| `Routes.Handle` | server.js:96-167 | A refused request changes nothing and answers 400 or 404. Create is refused exactly when `Create` refuses the form, and pay and delete exactly when no client has the id. List writes back the reclassified collection and answers with it. A successful create stores and answers exactly what `Create` builds, so the new client is appended under the fresh id. A successful pay stores exactly `Pay`'s collection and prepends to the bounded history one notice about that client, with its name and new due date. A successful delete stores and answers exactly what `Delete` gives, so the client with the id is removed and the rest keep their order. Clear empties the history. Only pay and clear touch the history. |
| `Routes.HandleKeepsInvariants` | server.js:96-167 | Every request keeps ids unique, clients on schedule and the history within 200 entries. This needs fresh ids and no cycle text "0". |
| `Routes.ListTwice` | server.js:96-102 | Listing a second time on the same day writes and answers the same as the first time. |
| `Scenarios.FirstCycle` | server.js:104-147 | Installed 2024-01-01 with the default cycle, the client is due 2024-01-31 and `Active`. It is `Inactive` on 2024-02-01. Paying makes it due 2024-03-01 and `Active` with one notice. Clear empties the history. |

## Left out

- Express routing, `requireAuth`, sessions and login (server.js:79-93, 181-196): framework plumbing around a single credential check.
- Concurrent requests: `Routes.Handle` treats each request as one atomic step. The real routes read the whole file, await, and write it back (server.js:112-122, 128-137, 154-158, and `appendNotif` at 56-60), so two requests in flight at once can overwrite each other. Two creates that both read `[]` both answer 200 but store one client; two pays can lose a notice. The model does not describe interleaved requests.
- File persistence: `ensureDataFiles`, reading and writing the JSON files, and resetting a corrupt file (server.js:43-55). The collections are values passed in and returned.
- The Resend e-mail sender and test route (server.js:63-76, 169-179), the socket.io broadcast (server.js:147, 207) and the cron job that only logs (server.js:208): external I/O.
- uuid generation, `new Date()` and `Date.now()` are inputs (`Routes.Env`). The model assumes fresh ids are fresh where a lemma needs it.
- Host time zones: `new Date(installDate)` followed by `setDate` and `toISOString` is modelled as adding whole days. A daylight-saving shift or a host offset that moves the UTC date is not modelled. The `Date.now()` fallback is taken as a given day `now`.
- `parseInt` on text that is not a number (NaN), and text dates that do not parse: the model takes the cycle as an integer and dates as day numbers. Such input makes the real route throw rather than answer.
- "Today" is the UTC date the host's clock gives (`toISOString`), taken as a parameter. The dashboard's `soon` date is taken as today + 3 (`Dashboard.SoonDays`). The real code adds 3 days in the browser's local time and then takes the UTC date, which can differ near midnight.
- `Dashboard.Lower`: models `toLowerCase` for ASCII letters only. Other Unicode case mappings are not modelled.
- `ClientStore.Create`, `ClientStore.Pay`: due dates are unbounded day numbers, but the routes store them through `toISOString().slice(0, 10)` (server.js:61). Two behaviours are not modelled. A due date after 9999-12-31 is written as `+0YYYYY-MM`, losing its day. The list route then marks that client `Inactive`, because `'+'` sorts before every digit, and a later payment re-reads the text as the first of that month. A due date more than 10^8 days from 1970 makes `toISOString` throw, so the real route writes nothing, where the model returns `Ok`.
- Dates outside years 0 to 9999, which `toISOString` writes in a six-digit form, are outside `Dates.IsoOrder`.
- `ClientStore.Create`: a JSON body whose name or phone is not a string is not modelled. Fields are strings, and "missing" is the empty string.
- A stored due date that is the empty string (falsy for the server, but earlier than any date for the dashboard) is not modelled. A due date is either present or absent.
- All DOM, toast and view code in public/script.js (lines 1-59, 81-95, 103-185), and `checkDueNotifications` (public/script.js:198-227): it relies on millisecond float arithmetic with `Math.ceil`, the wall clock and the browser's Notification API.

=== FILE: billing.dfy ===
/** The subscriber record and the date rules that the client routes of
    server.js apply to it: the default billing cycle, the cycle a payment
    advances by, and the due-date classification. */
module Billing {
  import opened Outcomes
  import Dates

  /** A calendar date as a day number: consecutive dates differ by one.
      The panel stores dates as `YYYY-MM-DD` text; module Dates shows that
      comparing that text compares these numbers. */
  type Day = int

  /** A wall-clock stamp (`createdAt`, a notification's `time`). The routes
      only copy it, so its unit does not matter. */
  type Instant = int

  /** The status values a stored client can hold. The server writes only
      `Active` and `Inactive`; the dashboard also recognises `Paid`. */
  datatype Status = Active | Inactive | Paid

  /** A stored subscriber. `billingCycle` is the whole number of days per
      billing period as the create route stored it; `dueDate` is absent only
      on records the create route did not write. */
  datatype Client = Client(
    id: string,
    name: string,
    phone: string,
    plan: string,
    location: string,
    installDate: Day,
    billingCycle: int,
    dueDate: Option<Day>,
    status: Status,
    createdAt: Instant)

  /** Days per cycle when the form leaves the cycle out. */
  const DefaultCycle: int := 30

  /** The status the list route assigns to a client due on `due`, seen on
      `today`: overdue strictly after the due date, active up to and
      including it. */
  function Classify(due: Day, today: Day): Status {
    if due < today then Inactive else Active
  }

  /** The cycle the create route stores. `None` is a form field that is
      falsy in JavaScript (missing, empty, the number 0) and becomes 30;
      `Some(n)` is a field whose text parses to `n`, kept as it is: the
      text "0" and negative numbers are not rejected. */
  function CycleFromForm(field: Option<int>): int {
    match field
    case None => DefaultCycle
    case Some(n) => n
  }

  /** The cycle the payment route advances by: the stored cycle, except a
      stored 0, which is falsy and so replaced by 30. */
  function PaymentCycle(stored: int): int {
    if stored == 0 then DefaultCycle else stored
  }

  /** The due-date invariant: the client is due exactly `k` whole cycles
      after installation. */
  ghost predicate OnSchedule(c: Client, k: nat) {
    c.dueDate == Some(c.installDate + k * c.billingCycle)
  }

  /** Every field except the status agrees. */
  ghost predicate SameExceptStatus(a: Client, b: Client) {
    b == a.(status := b.status)
  }

  /** The server compares the stored `YYYY-MM-DD` text with today's; on
      valid dates that is exactly `Classify` on their day numbers. */
  lemma ClassifyOnText(due: Dates.CivilDate, today: Dates.CivilDate)
    requires Dates.Valid(due) && Dates.Valid(today)
    ensures Classify(Dates.DayNumber(due), Dates.DayNumber(today))
         == (if Dates.TextLess(Dates.Iso(due), Dates.Iso(today)) then Inactive else Active)
  {
    Dates.IsoOrder(due, today);
  }
}

=== FILE: client_store.dfy ===
/** The client collection and the four client routes of server.js, each a
    pure function from the stored collection to the collection written back:
    the read-time status reclassification of GET /api/clients, and the
    create, pay and delete routes with their 400 and 404 answers. */
module ClientStore {
  import opened Outcomes
  import opened Billing

  /** The fields of a create request. `installDate` is `None` when the field
      is missing or empty; `billingCycle` is as in `CycleFromForm`. */
  datatype ClientForm = ClientForm(
    name: string,
    phone: string,
    plan: string,
    location: string,
    installDate: Option<Day>,
    billingCycle: Option<int>)

  /** What a successful mutation writes back, with the record it created,
      paid or removed. */
  datatype Written = Written(clients: seq<Client>, client: Client)

  /** Some stored client has this id. */
  ghost predicate Listed(cs: seq<Client>, id: string) {
    exists i :: 0 <= i < |cs| && cs[i].id == id
  }

  /** `i` is where `Array.prototype.find`/`findIndex` stop when looking
      for `id`: the first client carrying it. */
  ghost predicate IsFirst(cs: seq<Client>, id: string, i: int) {
    && 0 <= i < |cs|
    && cs[i].id == id
    && forall j :: 0 <= j < i ==> cs[j].id != id
  }

  /** No two stored clients share an id (fresh uuids keep it so). */
  ghost predicate UniqueIds(cs: seq<Client>) {
    forall i, j :: 0 <= i < j < |cs| ==> cs[i].id != cs[j].id
  }

  /** The linear search both the pay and the delete route perform. */
  function FirstIndex(cs: seq<Client>, id: string): (r: Option<nat>)
    ensures r.None? <==> !Listed(cs, id)
    ensures r.Some? ==> IsFirst(cs, id, r.value)
  {
    if cs == [] then None
    else if cs[0].id == id then Some(0)
    else
      match FirstIndex(cs[1..], id)
      case None => None
      case Some(i) =>
        assert forall j :: 0 < j <= i + 1 ==> cs[j] == cs[1..][j - 1];
        Some(i + 1)
  }

  /** One client as the list route leaves it. */
  function Reclassified(c: Client, today: Day): Client {
    match c.dueDate
    case Some(due) => c.(status := Classify(due, today))
    case None => c
  }

  /** The pass GET /api/clients makes over the stored collection before
      writing it back and answering with it: every client that has a due
      date gets `Inactive` when that date is before `today` and `Active`
      otherwise; the others keep whatever status they had. */
  function Reclassify(cs: seq<Client>, today: Day): (rs: seq<Client>)
    ensures |rs| == |cs|
    ensures forall i :: 0 <= i < |cs| ==> SameExceptStatus(cs[i], rs[i])
    ensures forall i :: 0 <= i < |cs| && cs[i].dueDate.None? ==>
              rs[i].status == cs[i].status
    ensures forall i :: 0 <= i < |cs| && cs[i].dueDate.Some? ==>
              (rs[i].status == Inactive <==> cs[i].dueDate.value < today)
    ensures forall i :: 0 <= i < |cs| && cs[i].dueDate.Some? ==>
              rs[i].status != Paid
  {
    if cs == [] then []
    else [Reclassified(cs[0], today)] + Reclassify(cs[1..], today)
  }

  /** POST /api/clients: a form without a name, a phone or an install date
      is refused with 400; otherwise a new client, due one cycle after its
      installation and `Active`, is appended at the end. */
  function Create(cs: seq<Client>, form: ClientForm, freshId: string, createdAt: Instant)
    : (r: Result<Written>)
    ensures r.Err? <==> form.name == [] || form.phone == [] || form.installDate.None?
    ensures r.Err? ==> r.error == MissingFields
    ensures r.Ok? ==> r.value.clients == cs + [r.value.client]
    ensures r.Ok? ==>
      var c := r.value.client;
      && c.id == freshId
      && c.name == form.name && c.phone == form.phone
      && c.plan == form.plan && c.location == form.location
      && Some(c.installDate) == form.installDate
      && (form.billingCycle.None? ==> c.billingCycle == DefaultCycle)
      && (form.billingCycle.Some? ==> c.billingCycle == form.billingCycle.value)
      && c.dueDate == Some(c.installDate + c.billingCycle)
      && c.status == Active
      && c.createdAt == createdAt
  {
    if form.name == [] || form.phone == [] || form.installDate.None? then
      Err(MissingFields)
    else
      var cycle := CycleFromForm(form.billingCycle);
      var install := form.installDate.value;
      var c := Client(freshId, form.name, form.phone, form.plan, form.location,
                      install, cycle, Some(install + cycle), Active, createdAt);
      Ok(Written(cs + [c], c))
  }

  /** The record the pay route writes: due one payment cycle after the
      stored due date (after `now` when there is none), and `Active`. */
  function PaidClient(c: Client, now: Day): Client {
    c.(dueDate := Some(c.dueDate.GetOr(now) + PaymentCycle(c.billingCycle)),
       status := Active)
  }

  /** POST /api/clients/:id/pay: an unknown id is refused with 404;
      otherwise the first client with the id is advanced by exactly one
      cycle from its stored due date, however overdue it was, and set
      `Active`, and no other client changes. */
  function Pay(cs: seq<Client>, id: string, now: Day): (r: Result<Written>)
    ensures r.Err? <==> !Listed(cs, id)
    ensures r.Err? ==> r.error == ClientNotFound
    ensures r.Ok? ==> forall i :: IsFirst(cs, id, i) ==>
      var p := r.value.client;
      && r.value.clients == cs[i := p]
      && p == cs[i].(dueDate := p.dueDate, status := p.status)
      && p.status == Active
      && (cs[i].dueDate.Some? ==>
            p.dueDate == Some(cs[i].dueDate.value + PaymentCycle(cs[i].billingCycle)))
      && (cs[i].dueDate.None? ==>
            p.dueDate == Some(now + PaymentCycle(cs[i].billingCycle)))
  {
    match FirstIndex(cs, id)
    case None => Err(ClientNotFound)
    case Some(i) =>
      var p := PaidClient(cs[i], now);
      Ok(Written(cs[i := p], p))
  }

  /** DELETE /api/clients/:id: an unknown id is refused with 404; otherwise
      the first client with the id is spliced out and returned, and the
      rest keep their order. */
  function Delete(cs: seq<Client>, id: string): (r: Result<Written>)
    ensures r.Err? <==> !Listed(cs, id)
    ensures r.Err? ==> r.error == NotFound
    ensures r.Ok? ==> forall i :: IsFirst(cs, id, i) ==>
      r.value.client == cs[i] && r.value.clients == cs[..i] + cs[i + 1..]
  {
    match FirstIndex(cs, id)
    case None => Err(NotFound)
    case Some(i) => Ok(Written(cs[..i] + cs[i + 1..], cs[i]))
  }

  /** Listing twice on the same day writes back what listing once did. */
  lemma ReclassifyIdempotent(cs: seq<Client>, today: Day)
    ensures Reclassify(Reclassify(cs, today), today) == Reclassify(cs, today)
  {
  }

  /** A client is on schedule: a non-zero cycle and a due date a positive
      whole number of cycles after installation. */
  ghost predicate Scheduled(c: Client) {
    c.billingCycle != 0 && exists k: nat :: k >= 1 && OnSchedule(c, k)
  }

  /** The invariants the client routes keep: unique ids, every client on
      schedule. */
  ghost predicate WellFormed(cs: seq<Client>) {
    UniqueIds(cs) && forall i :: 0 <= i < |cs| ==> Scheduled(cs[i])
  }

  /** A created client is due exactly one cycle after installation. */
  lemma CreateStartsSchedule(cs: seq<Client>, form: ClientForm, freshId: string, createdAt: Instant)
    requires Create(cs, form, freshId, createdAt).Ok?
    ensures OnSchedule(Create(cs, form, freshId, createdAt).value.client, 1)
  {
  }

  /** Paying moves a client that was `k` cycles past installation to `k + 1`,
      provided its stored cycle is not 0. */
  lemma PayAdvancesSchedule(cs: seq<Client>, id: string, now: Day, i: int, k: nat)
    requires IsFirst(cs, id, i)
    requires OnSchedule(cs[i], k) && cs[i].billingCycle != 0
    ensures Pay(cs, id, now).Ok?
    ensures OnSchedule(Pay(cs, id, now).value.client, k + 1)
  {
  }

  /** A stored cycle of 0 (what the create route keeps for the text "0")
      breaks the schedule: the payment route advances such a client by 30
      days, which is no whole number of its 0-day cycles. */
  lemma ZeroCycleLeavesSchedule(cs: seq<Client>, id: string, now: Day, i: int)
    requires IsFirst(cs, id, i)
    requires OnSchedule(cs[i], 1) && cs[i].billingCycle == 0
    ensures forall k: nat :: !OnSchedule(Pay(cs, id, now).value.client, k)
  {
  }

  /** Putting the removed client back where it was gives the original
      collection: delete drops exactly that one record. */
  lemma DeleteReinsert(cs: seq<Client>, id: string, i: int)
    requires IsFirst(cs, id, i)
    ensures Delete(cs, id).Ok?
    ensures var w := Delete(cs, id).value;
      && w.clients[..i] + [w.client] + w.clients[i..] == cs
      && multiset(w.clients) + multiset{w.client} == multiset(cs)
  {
  }

  /** Deleting a client right after creating it restores the collection and
      returns the created record, as long as the new id was fresh. */
  lemma CreateThenDelete(cs: seq<Client>, form: ClientForm, freshId: string, createdAt: Instant)
    requires !Listed(cs, freshId)
    requires Create(cs, form, freshId, createdAt).Ok?
    ensures var w := Create(cs, form, freshId, createdAt).value;
      Delete(w.clients, freshId) == Ok(Written(cs, w.client))
  {
    var w := Create(cs, form, freshId, createdAt).value;
    assert IsFirst(w.clients, freshId, |cs|);
    assert FirstIndex(w.clients, freshId) == Some(|cs|);
    assert w.clients[..|cs|] + w.clients[|cs| + 1..] == cs;
  }

  /** Listing keeps the invariants. */
  lemma ReclassifyWellFormed(cs: seq<Client>, today: Day)
    requires WellFormed(cs)
    ensures WellFormed(Reclassify(cs, today))
  {
    var rs := Reclassify(cs, today);
    forall i | 0 <= i < |rs|
      ensures Scheduled(rs[i])
    {
      var k: nat :| k >= 1 && OnSchedule(cs[i], k);
      assert OnSchedule(rs[i], k);
    }
  }

  /** Creating with a fresh id and a cycle other than the text "0" keeps the
      invariants. */
  lemma CreateWellFormed(cs: seq<Client>, form: ClientForm, freshId: string, createdAt: Instant)
    requires WellFormed(cs) && !Listed(cs, freshId)
    requires form.billingCycle != Some(0)
    requires Create(cs, form, freshId, createdAt).Ok?
    ensures WellFormed(Create(cs, form, freshId, createdAt).value.clients)
  {
    var w := Create(cs, form, freshId, createdAt).value;
    assert OnSchedule(w.client, 1);
    forall i | 0 <= i < |w.clients|
      ensures Scheduled(w.clients[i])
    {
      if i < |cs| {
        assert w.clients[i] == cs[i];
      }
    }
  }

  /** Paying keeps the invariants. */
  lemma PayWellFormed(cs: seq<Client>, id: string, now: Day)
    requires WellFormed(cs)
    requires Pay(cs, id, now).Ok?
    ensures WellFormed(Pay(cs, id, now).value.clients)
  {
    var i := FirstIndex(cs, id).value;
    var k: nat :| k >= 1 && OnSchedule(cs[i], k);
    PayAdvancesSchedule(cs, id, now, i, k);
    var w := Pay(cs, id, now).value;
    assert Scheduled(w.clients[i]);
  }

  /** Deleting keeps the invariants. */
  lemma DeleteWellFormed(cs: seq<Client>, id: string)
    requires WellFormed(cs)
    requires Delete(cs, id).Ok?
    ensures WellFormed(Delete(cs, id).value.clients)
  {
  }
}

=== FILE: dashboard.dfy ===
/** The dashboard rules of public/script.js `loadClients`: the search box
    filter over the listed clients, and the active, overdue and due-soon
    cards counted over the filtered list. */
module Dashboard {
  import opened Billing
  import ClientStore
  import Dates

  // ----- Search -----

  /** `toLowerCase` on one character, for the ASCII letters. */
  function LowerChar(ch: char): char {
    if 'A' <= ch <= 'Z' then (ch as int + 32) as char else ch
  }

  /** `toLowerCase` on a string: each upper-case ASCII letter becomes its
      lower-case partner, no upper-case ASCII letter is left, and every other
      character stays where it was. */
  function Lower(s: string): (r: string)
    ensures |r| == |s|
    ensures forall i :: 0 <= i < |s| && 'A' <= s[i] <= 'Z' ==> r[i] as int == s[i] as int + 32
    ensures forall i :: 0 <= i < |r| ==> !('A' <= r[i] <= 'Z')
    ensures forall i :: 0 <= i < |s| && !('A' <= s[i] <= 'Z') ==> r[i] == s[i]
  {
    seq(|s|, i requires 0 <= i < |s| => LowerChar(s[i]))
  }

  predicate StartsWith(s: string, q: string) {
    |q| <= |s| && s[..|q|] == q
  }

  /** `String.prototype.includes`: `q` starts at the front of `s` or
      somewhere in its tail. */
  function Includes(s: string, q: string): bool
    decreases |s|
  {
    StartsWith(s, q) || (|s| > 0 && Includes(s[1..], q))
  }

  /** `q` occurs in `s` starting at index `i`. */
  ghost predicate OccursAt(s: string, q: string, i: int) {
    0 <= i && i + |q| <= |s| && s[i..i + |q|] == q
  }

  /** `Includes` finds exactly the occurrences. */
  lemma {:induction false} IncludesIffOccurs(s: string, q: string)
    ensures Includes(s, q) <==> exists i :: OccursAt(s, q, i)
    decreases |s|
  {
    if StartsWith(s, q) {
      assert OccursAt(s, q, 0);
    }
    if |s| > 0 {
      IncludesIffOccurs(s[1..], q);
      if Includes(s[1..], q) {
        var i :| OccursAt(s[1..], q, i);
        assert s[1..][i..i + |q|] == s[i + 1..i + 1 + |q|];
        assert OccursAt(s, q, i + 1);
      }
    }
    if exists i :: OccursAt(s, q, i) {
      var i :| OccursAt(s, q, i);
      if i == 0 {
        assert s[..|q|] == s[0..|q|];
      } else {
        assert s[1..][i - 1..i - 1 + |q|] == s[i..i + |q|];
        assert OccursAt(s[1..], q, i - 1);
      }
    }
  }

  /** The search predicate: the name, lowercased, contains the lowercased
      query, or the phone contains the query as typed. A missing name or
      phone is the empty string (`c.name || ''`). */
  predicate Matches(c: Client, q: string) {
    Includes(Lower(c.name), Lower(q)) || Includes(c.phone, q)
  }

  /** `a` is `b` with some elements left out and the rest in order. */
  ghost predicate SubsequenceOf<T>(a: seq<T>, b: seq<T>)
    decreases |b|
  {
    if a == [] then true
    else if b == [] then false
    else (a[0] == b[0] && SubsequenceOf(a[1..], b[1..])) || SubsequenceOf(a, b[1..])
  }

  /** `Array.prototype.filter` with `Matches`. */
  function Filter(cs: seq<Client>, q: string): (r: seq<Client>)
    ensures |r| <= |cs|
    ensures forall i :: 0 <= i < |r| ==> Matches(r[i], q)
    ensures forall c :: multiset(r)[c] == if Matches(c, q) then multiset(cs)[c] else 0
    ensures SubsequenceOf(r, cs)
  {
    if cs == [] then []
    else
      assert cs == [cs[0]] + cs[1..];
      var rest := Filter(cs[1..], q);
      if Matches(cs[0], q) then [cs[0]] + rest else rest
  }

  /** The list `loadClients(q)` shows: everything when the query is empty,
      otherwise the matching clients in their stored order. */
  function Search(cs: seq<Client>, q: string): (r: seq<Client>)
    ensures q == [] ==> r == cs
    ensures q != [] ==> forall c :: multiset(r)[c] == if Matches(c, q) then multiset(cs)[c] else 0
    ensures SubsequenceOf(r, cs) && |r| <= |cs|
  {
    if q == [] then
      SubsequenceOfSelf(cs);
      cs
    else Filter(cs, q)
  }

  lemma {:induction false} SubsequenceOfSelf<T>(s: seq<T>)
    ensures SubsequenceOf(s, s)
    decreases |s|
  {
    if s != [] {
      SubsequenceOfSelf(s[1..]);
    }
  }

  /** Filtering a list whose every client matches keeps it whole. */
  lemma {:induction false} FilterKeepsMatching(cs: seq<Client>, q: string)
    requires forall i :: 0 <= i < |cs| ==> Matches(cs[i], q)
    ensures Filter(cs, q) == cs
    decreases |cs|
  {
    if cs != [] {
      FilterKeepsMatching(cs[1..], q);
    }
  }

  /** Searching the search result again with the same query changes nothing. */
  lemma SearchIdempotent(cs: seq<Client>, q: string)
    ensures Search(Search(cs, q), q) == Search(cs, q)
  {
    if q != [] {
      FilterKeepsMatching(Filter(cs, q), q);
    }
  }

  // ----- Counters -----

  /** How many days ahead the due-soon card looks. */
  const SoonDays: int := 3

  /** The elements of `s` that satisfy `p`, counted front to back as
      `forEach` does. */
  function Count(s: seq<Client>, p: Client -> bool): nat
    decreases |s|
  {
    if s == [] then 0
    else Count(s[..|s| - 1], p) + (if p(s[|s| - 1]) then 1 else 0)
  }

  /** `c.status !== 'Paid'`: the active card. */
  predicate IsActive(c: Client) {
    c.status != Paid
  }

  /** The overdue card: due strictly before today and not paid. A client
      without a due date compares false (`undefined < today`). */
  predicate IsOverdue(c: Client, today: Day) {
    c.dueDate.Some? && c.dueDate.value < today && c.status != Paid
  }

  /** The due-soon card: due between today and three days on, both ends
      included, and not paid. */
  predicate IsDueSoon(c: Client, today: Day) {
    c.dueDate.Some? && today <= c.dueDate.value <= today + SoonDays && c.status != Paid
  }

  function ActiveCount(s: seq<Client>): nat {
    Count(s, IsActive)
  }

  function OverdueCount(s: seq<Client>, today: Day): nat {
    Count(s, (c: Client) => IsOverdue(c, today))
  }

  function DueSoonCount(s: seq<Client>, today: Day): nat {
    Count(s, (c: Client) => IsDueSoon(c, today))
  }

  /** The four cards of the dashboard. */
  datatype Cards = Cards(total: nat, active: nat, dueSoon: nat, overdue: nat)

  /** A predicate that implies another counts no more elements. */
  lemma {:induction false} CountMonotone(s: seq<Client>, p: Client -> bool, q: Client -> bool)
    requires forall i :: 0 <= i < |s| ==> p(s[i]) ==> q(s[i])
    ensures Count(s, p) <= Count(s, q)
    decreases |s|
  {
    if s != [] {
      CountMonotone(s[..|s| - 1], p, q);
    }
  }

  /** Counting two predicates that never hold together counts no more than a
      third predicate implied by either. */
  lemma {:induction false} CountDisjoint(s: seq<Client>, p: Client -> bool, q: Client -> bool, r: Client -> bool)
    requires forall i :: 0 <= i < |s| ==> !(p(s[i]) && q(s[i]))
    requires forall i :: 0 <= i < |s| ==> (p(s[i]) || q(s[i])) ==> r(s[i])
    ensures Count(s, p) + Count(s, q) <= Count(s, r)
    decreases |s|
  {
    if s != [] {
      CountDisjoint(s[..|s| - 1], p, q, r);
    }
  }

  /** Predicates that agree on every element count the same. */
  lemma {:induction false} CountAgree(s: seq<Client>, p: Client -> bool, q: Client -> bool)
    requires forall i :: 0 <= i < |s| ==> p(s[i]) == q(s[i])
    ensures Count(s, p) == Count(s, q)
    decreases |s|
  {
    if s != [] {
      CountAgree(s[..|s| - 1], p, q);
    }
  }

  /** The overdue and due-soon cards count disjoint sets of active clients,
      and the active card never exceeds the total. */
  lemma CardsBounded(s: seq<Client>, today: Day)
    ensures OverdueCount(s, today) + DueSoonCount(s, today) <= ActiveCount(s) <= |s|
  {
    CountDisjoint(s, (c: Client) => IsOverdue(c, today), (c: Client) => IsDueSoon(c, today), IsActive);
    CountMonotone(s, IsActive, (c: Client) => true);
    CountAll(s);
  }

  lemma {:induction false} CountAll(s: seq<Client>)
    ensures Count(s, (c: Client) => true) == |s|
    decreases |s|
  {
    if s != [] {
      CountAll(s[..|s| - 1]);
    }
  }

  /** The loop of `loadClients` over the shown list: one pass bumping the
      three counters, then the total. */
  method Tally(list: seq<Client>, today: Day) returns (cards: Cards)
    ensures cards.total == |list|
    ensures cards.active == ActiveCount(list)
    ensures cards.overdue == OverdueCount(list, today)
    ensures cards.dueSoon == DueSoonCount(list, today)
    ensures cards.overdue + cards.dueSoon <= cards.active <= cards.total
  {
    var active, dueSoon, overdue := 0, 0, 0;
    for i := 0 to |list|
      invariant active == ActiveCount(list[..i])
      invariant overdue == OverdueCount(list[..i], today)
      invariant dueSoon == DueSoonCount(list[..i], today)
    {
      var c := list[i];
      assert list[..i + 1][..i] == list[..i];
      if c.status != Paid {
        active := active + 1;
      }
      if c.dueDate.Some? && c.dueDate.value < today && c.status != Paid {
        overdue := overdue + 1;
      }
      if c.dueDate.Some? && c.dueDate.value >= today && c.dueDate.value <= today + SoonDays
         && c.status != Paid {
        dueSoon := dueSoon + 1;
      }
    }
    assert list[..|list|] == list;
    CardsBounded(list, today);
    cards := Cards(|list|, active, dueSoon, overdue);
  }

  /** A client without a due date adds to the active card (unless paid) and
      to neither the overdue nor the due-soon card. */
  lemma UndatedCountsOnlyAsActive(s: seq<Client>, c: Client, today: Day)
    requires c.dueDate.None?
    ensures ActiveCount(s + [c]) == ActiveCount(s) + (if c.status != Paid then 1 else 0)
    ensures OverdueCount(s + [c], today) == OverdueCount(s, today)
    ensures DueSoonCount(s + [c], today) == DueSoonCount(s, today)
  {
  }

  /** On the list the server answers with for the same day, the overdue card
      counts exactly the clients with a due date that the server marked
      `Inactive`. */
  lemma OverdueMatchesServer(cs: seq<Client>, today: Day)
    ensures var shown := ClientStore.Reclassify(cs, today);
      OverdueCount(shown, today)
        == Count(shown, (c: Client) => c.dueDate.Some? && c.status == Inactive)
  {
    var shown := ClientStore.Reclassify(cs, today);
    forall i | 0 <= i < |shown|
      ensures IsOverdue(shown[i], today) == (shown[i].dueDate.Some? && shown[i].status == Inactive)
    {
      assert shown[i].dueDate == cs[i].dueDate;
    }
    CountAgree(shown, (c: Client) => IsOverdue(c, today),
               (c: Client) => c.dueDate.Some? && c.status == Inactive);
  }

  /** The cards compare `YYYY-MM-DD` text: `dueDate < today` for overdue,
      `dueDate >= today && dueDate <= soonStr` for due soon. On valid dates
      these are the day-number comparisons `IsOverdue` and `IsDueSoon` make. */
  lemma CardsOnText(due: Dates.CivilDate, today: Dates.CivilDate, soon: Dates.CivilDate)
    requires Dates.Valid(due) && Dates.Valid(today) && Dates.Valid(soon)
    ensures Dates.TextLess(Dates.Iso(due), Dates.Iso(today))
            <==> Dates.DayNumber(due) < Dates.DayNumber(today)
    ensures (!Dates.TextLess(Dates.Iso(due), Dates.Iso(today))
             && !Dates.TextLess(Dates.Iso(soon), Dates.Iso(due)))
            <==> Dates.DayNumber(today) <= Dates.DayNumber(due) <= Dates.DayNumber(soon)
  {
    Dates.IsoOrder(due, today);
    Dates.IsoOrder(soon, due);
  }
}

=== FILE: dates.dfy ===
/** Calendar dates as the panel writes them, `YYYY-MM-DD` (the first ten
    characters of `toISOString`), and the day numbers the rest of the model
    uses instead. The server decides overdue with `c.dueDate < today` and
    the dashboard its cards with `<`, `>=` and `<=` on these strings; the
    main lemma here, `IsoOrder`, shows that for valid dates string order is
    day order, so the model may compare day numbers. */
module Dates {

  /** A proleptic Gregorian calendar date. */
  datatype CivilDate = CivilDate(year: int, month: int, day: int)

  predicate IsLeap(y: int) {
    y % 4 == 0 && (y % 100 != 0 || y % 400 == 0)
  }

  function DaysInYear(y: int): int {
    if IsLeap(y) then 366 else 365
  }

  function DaysInMonth(y: int, m: int): int {
    if m == 2 then (if IsLeap(y) then 29 else 28)
    else if m == 4 || m == 6 || m == 9 || m == 11 then 30
    else 31
  }

  /** A date with a four-digit year, as `toISOString` writes years 0 to 9999. */
  predicate Valid(d: CivilDate) {
    && 0 <= d.year <= 9999
    && 1 <= d.month <= 12
    && 1 <= d.day <= DaysInMonth(d.year, d.month)
  }

  /** Days from 0000-01-01 to the first day of year `y`. */
  function DaysBeforeYear(y: nat): int {
    365 * y + (y + 3) / 4 - (y + 99) / 100 + (y + 399) / 400
  }

  /** Days from the first of January of year `y` to the first day of month `m`. */
  function DaysBeforeMonth(y: int, m: int): int
    requires 1 <= m <= 12
  {
    var leap := if IsLeap(y) then 1 else 0;
    if m == 1 then 0
    else if m == 2 then 31
    else if m == 3 then 59 + leap
    else if m == 4 then 90 + leap
    else if m == 5 then 120 + leap
    else if m == 6 then 151 + leap
    else if m == 7 then 181 + leap
    else if m == 8 then 212 + leap
    else if m == 9 then 243 + leap
    else if m == 10 then 273 + leap
    else if m == 11 then 304 + leap
    else 334 + leap
  }

  /** The day number of a date: days since 0000-01-01. */
  function DayNumber(d: CivilDate): int
    requires Valid(d)
  {
    DaysBeforeYear(d.year) + DaysBeforeMonth(d.year, d.month) + d.day - 1
  }

  // ----- Day numbers follow the calendar -----

  /** Going from `y` to `y + 1` adds one day to `(y + k - 1) / k` exactly
      when `k` divides `y`. */
  lemma DivStep(y: nat, k: int)
    requires k == 4 || k == 100 || k == 400
    ensures (y + k) / k == (y + k - 1) / k + (if y % k == 0 then 1 else 0)
  {
  }

  lemma YearStep(y: nat)
    ensures DaysBeforeYear(y + 1) == DaysBeforeYear(y) + DaysInYear(y)
  {
    DivStep(y, 4);
    DivStep(y, 100);
    DivStep(y, 400);
    if y % 100 == 0 {
      assert y == 100 * (y / 100);
      assert y % 4 == 0;
    }
    if y % 400 == 0 {
      assert y == 400 * (y / 400);
      assert y % 100 == 0;
    }
  }

  lemma MonthStep(y: int, m: int)
    requires 1 <= m < 12
    ensures DaysBeforeMonth(y, m + 1) == DaysBeforeMonth(y, m) + DaysInMonth(y, m)
  {
  }

  lemma YearEnd(y: int)
    ensures DaysBeforeMonth(y, 12) + DaysInMonth(y, 12) == DaysInYear(y)
  {
  }

  /** A month ends no later than any later month begins. */
  lemma MonthsAscend(y: int, m: int, m': int)
    requires 1 <= m < m' <= 12
    ensures DaysBeforeMonth(y, m) + DaysInMonth(y, m) <= DaysBeforeMonth(y, m')
  {
  }

  /** A year ends no later than any later year begins. */
  lemma {:induction false} YearsAscend(y: nat, y': nat)
    requires y < y'
    ensures DaysBeforeYear(y) + DaysInYear(y) <= DaysBeforeYear(y')
    decreases y' - y
  {
    YearStep(y);
    if y + 1 < y' {
      YearsAscend(y + 1, y');
      YearStep(y + 1);
    }
  }

  /** Every day of a valid date falls inside its year. */
  lemma WithinYear(d: CivilDate)
    requires Valid(d)
    ensures DaysBeforeMonth(d.year, d.month) + d.day - 1 < DaysInYear(d.year)
  {
  }

  /** Consecutive calendar dates have consecutive day numbers, across the
      end of a month and across the end of a year. */
  lemma NextDay(y: int, m: int)
    requires 0 <= y <= 9999 && 1 <= m <= 12 && (m == 12 ==> y < 9999)
    ensures m < 12 ==> DayNumber(CivilDate(y, m + 1, 1))
                       == DayNumber(CivilDate(y, m, DaysInMonth(y, m))) + 1
    ensures m == 12 ==> DayNumber(CivilDate(y + 1, 1, 1))
                        == DayNumber(CivilDate(y, 12, DaysInMonth(y, 12))) + 1
  {
    if m < 12 {
      MonthStep(y, m);
    } else {
      YearStep(y);
      YearEnd(y);
    }
  }

  /** Calendar order: earlier year, or same year and earlier month, or same
      month and earlier day. */
  predicate Before(a: CivilDate, b: CivilDate) {
    || a.year < b.year
    || (a.year == b.year && a.month < b.month)
    || (a.year == b.year && a.month == b.month && a.day < b.day)
  }

  /** Earlier in the calendar means a smaller day number. */
  lemma BeforeIsSmaller(a: CivilDate, b: CivilDate)
    requires Valid(a) && Valid(b) && Before(a, b)
    ensures DayNumber(a) < DayNumber(b)
  {
    if a.year < b.year {
      WithinYear(a);
      YearsAscend(a.year, b.year);
    } else if a.month < b.month {
      MonthsAscend(a.year, a.month, b.month);
    }
  }

  // ----- The text form -----

  function DigitChar(n: int): char
    requires 0 <= n < 10
  {
    ('0' as int + n) as char
  }

  /** Two zero-padded digits. */
  function Digits2(n: int): (s: string)
    requires 0 <= n < 100
    ensures |s| == 2
  {
    [DigitChar(n / 10), DigitChar(n % 10)]
  }

  /** Four zero-padded digits. */
  function Digits4(n: int): (s: string)
    requires 0 <= n < 10000
    ensures |s| == 4
  {
    Digits2(n / 100) + Digits2(n % 100)
  }

  /** `YYYY-MM-DD`. */
  function Iso(d: CivilDate): (s: string)
    requires Valid(d)
    ensures |s| == 10
  {
    Digits4(d.year) + ("-" + Digits2(d.month) + "-" + Digits2(d.day))
  }

  /** JavaScript's `<` on strings: the first differing character decides;
      a proper prefix comes first. */
  predicate TextLess(a: string, b: string)
    decreases |a|
  {
    if a == [] then b != []
    else if b == [] then false
    else if a[0] != b[0] then a[0] < b[0]
    else TextLess(a[1..], b[1..])
  }

  /** Comparing two concatenations whose first parts have the same length
      compares the first parts, and the second parts only on a tie. */
  lemma {:induction false} TextLessConcat(a1: string, a2: string, b1: string, b2: string)
    requires |a1| == |b1|
    ensures TextLess(a1 + a2, b1 + b2) <==> TextLess(a1, b1) || (a1 == b1 && TextLess(a2, b2))
    decreases |a1|
  {
    if a1 != [] {
      assert (a1 + a2)[1..] == a1[1..] + a2;
      assert (b1 + b2)[1..] == b1[1..] + b2;
      TextLessConcat(a1[1..], a2, b1[1..], b2);
      if a1[0] == b1[0] && a1[1..] == b1[1..] {
        assert a1 == b1;
      }
    } else {
      assert a1 + a2 == a2 && b1 + b2 == b2;
    }
  }

  lemma TextLessChar(x: char, y: char)
    ensures TextLess([x], [y]) <==> x < y
  {
    assert [x][1..] == [] && [y][1..] == [];
  }

  lemma Digits2Order(n: int, m: int)
    requires 0 <= n < 100 && 0 <= m < 100
    ensures TextLess(Digits2(n), Digits2(m)) <==> n < m
    ensures Digits2(n) == Digits2(m) <==> n == m
  {
    assert Digits2(n) == [DigitChar(n / 10)] + [DigitChar(n % 10)];
    assert Digits2(m) == [DigitChar(m / 10)] + [DigitChar(m % 10)];
    TextLessConcat([DigitChar(n / 10)], [DigitChar(n % 10)], [DigitChar(m / 10)], [DigitChar(m % 10)]);
    TextLessChar(DigitChar(n / 10), DigitChar(m / 10));
    TextLessChar(DigitChar(n % 10), DigitChar(m % 10));
    if Digits2(n) == Digits2(m) {
      assert Digits2(n)[0] == Digits2(m)[0] && Digits2(n)[1] == Digits2(m)[1];
    }
  }

  lemma Digits4Order(n: int, m: int)
    requires 0 <= n < 10000 && 0 <= m < 10000
    ensures TextLess(Digits4(n), Digits4(m)) <==> n < m
    ensures Digits4(n) == Digits4(m) <==> n == m
  {
    TextLessConcat(Digits2(n / 100), Digits2(n % 100), Digits2(m / 100), Digits2(m % 100));
    Digits2Order(n / 100, m / 100);
    Digits2Order(n % 100, m % 100);
    if Digits4(n) == Digits4(m) {
      assert Digits4(n)[..2] == Digits2(n / 100) && Digits4(m)[..2] == Digits2(m / 100);
      assert Digits4(n)[2..] == Digits2(n % 100) && Digits4(m)[2..] == Digits2(m % 100);
    }
  }

  /** The text of valid dates orders them as the calendar does. */
  lemma IsoBefore(a: CivilDate, b: CivilDate)
    requires Valid(a) && Valid(b)
    ensures TextLess(Iso(a), Iso(b)) <==> Before(a, b)
  {
    var ta := "-" + Digits2(a.day);
    var tb := "-" + Digits2(b.day);
    var ma := "-" + Digits2(a.month);
    var mb := "-" + Digits2(b.month);
    assert Iso(a) == Digits4(a.year) + (ma + ta);
    assert Iso(b) == Digits4(b.year) + (mb + tb);
    TextLessConcat(Digits4(a.year), ma + ta, Digits4(b.year), mb + tb);
    Digits4Order(a.year, b.year);
    TextLessConcat(ma, ta, mb, tb);
    assert ma == ['-'] + Digits2(a.month) && mb == ['-'] + Digits2(b.month);
    TextLessConcat(['-'], Digits2(a.month), ['-'], Digits2(b.month));
    Digits2Order(a.month, b.month);
    TextLessConcat(['-'], Digits2(a.day), ['-'], Digits2(b.day));
    Digits2Order(a.day, b.day);
    TextLessChar('-', '-');
    if ma == mb {
      assert ma[1..] == Digits2(a.month) && mb[1..] == Digits2(b.month);
    }
  }

  /** String comparison of `YYYY-MM-DD` dates agrees with comparison of
      their day numbers, in both directions. */
  lemma IsoOrder(a: CivilDate, b: CivilDate)
    requires Valid(a) && Valid(b)
    ensures TextLess(Iso(a), Iso(b)) <==> DayNumber(a) < DayNumber(b)
  {
    IsoBefore(a, b);
    if Before(a, b) {
      BeforeIsSmaller(a, b);
    } else if Before(b, a) {
      BeforeIsSmaller(b, a);
    } else {
      assert a == b;
    }
  }
}

=== FILE: notification_log.dfy ===
/** The notification history of server.js: the payment notice the pay route
    emits, `appendNotif`, which keeps the newest 200 entries newest first,
    and the clear route. */
module NotificationLog {
  import opened Billing

  /** The text of a notice, kept as the values it is rendered from: the pay
      route writes "<name> marked as paid. Next due: <date>". */
  datatype Message = MarkedPaid(clientName: string, nextDue: Day)

  /** A stored notification. `clientId` and `clientName` are copies taken
      when it was emitted, so deleting the client leaves it intact. */
  datatype Notification = Notification(
    id: string,
    time: Instant,
    clientId: string,
    clientName: string,
    message: Message)

  /** The most entries the history keeps. */
  const MaxNotifications: nat := 200

  function Min(a: int, b: int): int {
    if a <= b then a else b
  }

  /** `appendNotif`: the new entry goes first (`unshift`) and the history is
      cut to its first 200 entries (`slice(0, 200)`), so the oldest go. */
  function Append(log: seq<Notification>, n: Notification): (r: seq<Notification>)
    ensures |r| == Min(|log| + 1, MaxNotifications)
    ensures r[0] == n
    ensures r[1..] == log[..|r| - 1]
  {
    ([n] + log)[..Min(|log| + 1, MaxNotifications)]
  }

  /** The notice the pay route emits for the client it has just paid: it
      names the client by a copy of its id and name and announces the new
      due date. */
  function PaymentNotice(paid: Client, freshId: string, time: Instant): Notification
    requires paid.dueDate.Some?
  {
    Notification(freshId, time, paid.id, paid.name, MarkedPaid(paid.name, paid.dueDate.value))
  }

  /** `ns` appended one after the other, first element first. */
  function AppendAll(log: seq<Notification>, ns: seq<Notification>): seq<Notification>
    decreases |ns|
  {
    if ns == [] then log else AppendAll(Append(log, ns[0]), ns[1..])
  }

  function Reverse<T>(s: seq<T>): (r: seq<T>)
    ensures |r| == |s|
  {
    if s == [] then [] else Reverse(s[1..]) + [s[0]]
  }

  /** Cutting to the bound before prepending more entries changes nothing. */
  lemma PrefixOfCut(r: seq<Notification>, x: seq<Notification>)
    ensures (r + x[..Min(|x|, MaxNotifications)])[..Min(|r| + Min(|x|, MaxNotifications), MaxNotifications)]
         == (r + x)[..Min(|r| + |x|, MaxNotifications)]
  {
  }

  /** A batch of appends keeps the newest 200 entries of the batch (newest
      first) followed by the old history: only the oldest entries are ever
      dropped. */
  lemma {:induction false} AppendAllKeepsNewest(log: seq<Notification>, ns: seq<Notification>)
    requires |log| <= MaxNotifications
    ensures AppendAll(log, ns) == (Reverse(ns) + log)[..Min(|ns| + |log|, MaxNotifications)]
    decreases |ns|
  {
    if ns != [] {
      var rest := ns[1..];
      var x := [ns[0]] + log;
      AppendAllKeepsNewest(Append(log, ns[0]), rest);
      PrefixOfCut(Reverse(rest), x);
      assert Reverse(ns) + log == Reverse(rest) + x;
    }
  }

  /** Times never increase from the front of the history to its back. */
  ghost predicate NewestFirst(log: seq<Notification>) {
    forall i, j :: 0 <= i < j < |log| ==> log[i].time >= log[j].time
  }

  /** Appending an entry no older than the current newest keeps the history
      ordered newest first, which is the order GET /api/notifications
      answers with. */
  lemma AppendKeepsNewestFirst(log: seq<Notification>, n: Notification)
    requires NewestFirst(log)
    requires |log| > 0 ==> n.time >= log[0].time
    ensures NewestFirst(Append(log, n))
  {
  }
}

=== FILE: outcomes.dfy ===
/** Values that may be absent, and the outcome of an operation that can be
    refused. A field the panel's JSON records may leave out (a client's due
    date, an optional form field) is an `Option`; a route that can answer
    with an HTTP error returns a `Result`. */
module Outcomes {

  /** A present or absent value. */
  datatype Option<+T> = None | Some(value: T) {

    /** The value, or `default` when it is absent. */
    function GetOr(default: T): T {
      match this
      case Some(v) => v
      case None => default
    }
  }

  /** The HTTP error answers the client and notification routes give.
      Each carries the status code and the `error` text of its JSON body. */
  datatype ApiError =
    | MissingFields     // 400 'Missing fields' from POST /api/clients
    | ClientNotFound    // 404 'Client not found' from POST /api/clients/:id/pay
    | NotFound          // 404 'Not found' from DELETE /api/clients/:id
  {
    function Code(): int {
      match this
      case MissingFields => 400
      case ClientNotFound => 404
      case NotFound => 404
    }
  }

  /** Either the value a route computed or the error it answered with. */
  datatype Result<+T> = Ok(value: T) | Err(error: ApiError)
}

=== FILE: routes.dfy ===
/** The client and notification routes of server.js as one request handler
    over the panel's whole stored state: the client collection and the
    notification history, each read and written whole. */
module Routes {
  import opened Outcomes
  import opened Billing
  import opened ClientStore
  import opened NotificationLog

  /** The two stored collections (`clients.json`, `notifications.json`). */
  datatype State = State(clients: seq<Client>, notifications: seq<Notification>)

  /** The routes, after authentication. */
  datatype Request =
    | ListClients                  // GET    /api/clients
    | CreateClient(form: ClientForm) // POST   /api/clients
    | PayClient(id: string)        // POST   /api/clients/:id/pay
    | DeleteClient(id: string)     // DELETE /api/clients/:id
    | ListNotifications            // GET    /api/notifications
    | ClearNotifications           // DELETE /api/notifications/clear

  /** What the host supplies to one request: today's date, the date
      `Date.now()` falls on, the current instant, and one fresh uuid. */
  datatype Env = Env(today: Day, now: Day, instant: Instant, freshId: string)

  /** The JSON answer of a route. */
  datatype Reply =
    | ClientList(clients: seq<Client>)
    | CreatedClient(client: Client)
    | Acknowledged                          // { ok: true }
    | RemovedClient(removed: Client)        // { ok: true, removed }
    | NotificationList(notifications: seq<Notification>)
    | Failed(error: ApiError)

  datatype Response = Response(state: State, reply: Reply)

  /** One request. A refused request writes nothing; the client routes never
      touch the notification history except pay, which adds its notice. */
  function Handle(s: State, req: Request, env: Env): (r: Response)
    ensures r.reply.Failed? ==> r.state == s
    ensures r.reply.Failed? ==> r.reply.error.Code() == 400 || r.reply.error.Code() == 404
    ensures req.ListClients? || req.ListNotifications? ==> !r.reply.Failed?
    ensures req.ListClients? ==>
      && r.state == s.(clients := Reclassify(s.clients, env.today))
      && r.reply == ClientList(r.state.clients)
    ensures req.ListNotifications? ==> r == Response(s, NotificationList(s.notifications))
    ensures req.CreateClient? ==>
      && (r.reply.Failed? <==> Create(s.clients, req.form, env.freshId, env.instant).Err?)
      && (!r.reply.Failed? ==>
            && r.reply.CreatedClient?
            && r.reply.client.id == env.freshId
            && r.state.clients == s.clients + [r.reply.client])
    ensures req.CreateClient? && r.reply.CreatedClient? ==>
      Create(s.clients, req.form, env.freshId, env.instant) == Ok(Written(r.state.clients, r.reply.client))
    ensures req.PayClient? ==> (r.reply.Failed? <==> !Listed(s.clients, req.id))
    ensures req.PayClient? && !r.reply.Failed? ==>
      r.state.clients == Pay(s.clients, req.id, env.now).value.clients
    ensures req.DeleteClient? && r.reply.RemovedClient? ==>
      Delete(s.clients, req.id) == Ok(Written(r.state.clients, r.reply.removed))
    ensures req.DeleteClient? ==>
      && (r.reply.Failed? <==> !Listed(s.clients, req.id))
      && (!r.reply.Failed? ==>
            && r.reply.RemovedClient?
            && r.reply.removed.id == req.id
            && multiset(r.state.clients) + multiset{r.reply.removed} == multiset(s.clients))
    ensures req.ClearNotifications? ==> r == Response(State(s.clients, []), Acknowledged)
    ensures !req.PayClient? && !req.ClearNotifications? ==>
              r.state.notifications == s.notifications
    ensures req.PayClient? && !r.reply.Failed? ==>
      && r.reply == Acknowledged
      && |r.state.clients| == |s.clients|
      && |r.state.notifications| == Min(|s.notifications| + 1, MaxNotifications)
      && r.state.notifications[1..] == s.notifications[..|r.state.notifications| - 1]
      && r.state.notifications[0].id == env.freshId
      && r.state.notifications[0].clientId == req.id
      && forall i :: IsFirst(s.clients, req.id, i) ==>
           && r.state.notifications[0].clientName == s.clients[i].name
           && Some(r.state.notifications[0].message.nextDue) == r.state.clients[i].dueDate
  {
    match req
    case ListClients =>
      var shown := Reclassify(s.clients, env.today);
      Response(s.(clients := shown), ClientList(shown))
    case CreateClient(form) =>
      (match Create(s.clients, form, env.freshId, env.instant)
       case Err(e) => Response(s, Failed(e))
       case Ok(w) => Response(s.(clients := w.clients), CreatedClient(w.client)))
    case PayClient(id) =>
      (match Pay(s.clients, id, env.now)
       case Err(e) => Response(s, Failed(e))
       case Ok(w) =>
         var notice := PaymentNotice(w.client, env.freshId, env.instant);
         Response(State(w.clients, Append(s.notifications, notice)), Acknowledged))
    case DeleteClient(id) =>
      (match Delete(s.clients, id)
       case Err(e) => Response(s, Failed(e))
       case Ok(w) =>
         DeleteReinsert(s.clients, id, FirstIndex(s.clients, id).value);
         Response(s.(clients := w.clients), RemovedClient(w.client)))
    case ListNotifications =>
      Response(s, NotificationList(s.notifications))
    case ClearNotifications =>
      Response(s.(notifications := []), Acknowledged)
  }

  /** What every request keeps of a well-formed state: unique ids, clients
      on schedule, and a history within the bound. A create must bring a
      fresh id and a cycle other than the text "0". */
  lemma HandleKeepsInvariants(s: State, req: Request, env: Env)
    requires WellFormed(s.clients) && |s.notifications| <= MaxNotifications
    requires req.CreateClient? ==> !Listed(s.clients, env.freshId) && req.form.billingCycle != Some(0)
    ensures WellFormed(Handle(s, req, env).state.clients)
    ensures |Handle(s, req, env).state.notifications| <= MaxNotifications
  {
    match req
    case ListClients => ReclassifyWellFormed(s.clients, env.today);
    case CreateClient(form) =>
      if Create(s.clients, form, env.freshId, env.instant).Ok? {
        CreateWellFormed(s.clients, form, env.freshId, env.instant);
      }
    case PayClient(id) =>
      if Pay(s.clients, id, env.now).Ok? {
        PayWellFormed(s.clients, id, env.now);
      }
    case DeleteClient(id) =>
      if Delete(s.clients, id).Ok? {
        DeleteWellFormed(s.clients, id);
      }
    case ListNotifications =>
    case ClearNotifications =>
  }

  /** Listing the clients a second time on the same day writes and answers
      the same as the first time. */
  lemma ListTwice(s: State, env: Env)
    ensures var once := Handle(s, ListClients, env);
      Handle(once.state, ListClients, env) == once
  {
  }

  /** The notice the pay route emits names the client it paid: the first
      client with the id, by that client's name, announcing the due date
      now stored for it. */
  lemma PaymentNoticeNamesPaidClient(cs: seq<Client>, id: string, now: Day, i: int,
                                     freshId: string, time: Instant)
    requires IsFirst(cs, id, i)
    ensures Pay(cs, id, now).Ok?
    ensures var w := Pay(cs, id, now).value;
      var n := PaymentNotice(w.client, freshId, time);
      && n.clientId == id
      && n.clientName == cs[i].name
      && Some(n.message.nextDue) == w.clients[i].dueDate
  {
  }
}

=== FILE: scenarios.dfy ===
/** A subscriber's first cycle walked through the routes with real
    calendar dates: installed on 2024-01-01 with the default cycle, listed
    on 2024-02-01, paid, and the history cleared. */
module Scenarios {
  import opened Outcomes
  import opened Billing
  import opened ClientStore
  import opened NotificationLog
  import opened Routes
  import Dates

  /** The day number of a calendar date. */
  function On(y: int, m: int, d: int): Day
    requires Dates.Valid(Dates.CivilDate(y, m, d))
  {
    Dates.DayNumber(Dates.CivilDate(y, m, d))
  }

  lemma FirstCycle()
    ensures
      var form := ClientForm("Ana", "09171234567", "Fiber 50", "Poblacion",
                             Some(On(2024, 1, 1)), None);
      var created := Handle(State([], []), CreateClient(form), Env(On(2024, 1, 1), On(2024, 1, 1), 0, "c1"));
      var listed := Handle(created.state, ListClients, Env(On(2024, 2, 1), On(2024, 2, 1), 1, "x"));
      var paid := Handle(listed.state, PayClient("c1"), Env(On(2024, 2, 1), On(2024, 2, 1), 2, "n1"));
      var cleared := Handle(paid.state, ClearNotifications, Env(On(2024, 2, 1), On(2024, 2, 1), 3, "x"));
      && created.reply.CreatedClient?
      && created.reply.client.dueDate == Some(On(2024, 1, 31))
      && created.reply.client.status == Active
      && listed.state.clients[0].status == Inactive
      && paid.state.clients[0].dueDate == Some(On(2024, 3, 1))
      && paid.state.clients[0].status == Active
      && paid.state.notifications == [Notification("n1", 2, "c1", "Ana", MarkedPaid("Ana", On(2024, 3, 1)))]
      && cleared.state.notifications == []
  {
  }
}
